=== FILE: README.md ===
# Kwong Ngai site: verified model of its decision logic

A Dafny model of the logic in the Kwong Ngai troupe's brochure site, which is
built with Next.js and React. The site is mostly markup and animation. The
parts modelled here are its pure decisions and small state machines, with
browser globals and React state turned into explicit inputs and state records:

- **Device capabilities and asset choice** (`ModelLoader`). An `Environment`
  snapshot covers viewport width, user agent, the three connection slots,
  the core and memory hints, the pixel ratio, or no `window` at all. From it
  the model classifies the device as low, medium or high. It also gives the
  model file path for an asset name, whether to use aggressive
  optimisations, and the renderer settings.
- **Achievements page** (`Awards`, `AchievementsPage`). This covers
  `sortAwardsByDate` on `dd/mm/yyyy` dates, the three pages and their
  arrows, the gallery viewer's wrap-around arrows, and the set of rows
  revealed by intersection events.
- **Lion and dragon carousels** (`Carousel`, `LionPage`, `DragonPage`). One
  state machine `(currentIndex, isDragging, startX, dragOffset, isModalOpen)`
  covers both, parameterised by slide count and controls: six slides with a
  click-to-open viewer for the lion, two slides with arrow buttons for the
  dragon.
- **Loading progress** (`LoadProgress`, `ProgressBar`). This is the viewer's
  first-load gate, driven by hook values, path changes and the 500 ms reveal
  timer, plus the progress bar's width, percentage and status text.
- **Landing page** (`HomePage`). This covers the tab-to-file map, the tab
  handler and the heading.

`Js` spells out the JavaScript semantics the code relies on:
- truncating `%`;
- `Math.round`, `Math.min` and `Math.max`;
- a case-insensitive literal search, as a non-Unicode `/…/i` expression
  performs it;
- ASCII upper-casing.

JavaScript numbers are `real` where fractions occur (progress, drag
offsets, pixel ratio, device memory) and `int` for indices and widths.

Behaviour of the code worth knowing, which the model follows:
- In the code, `isLowEndDevice` includes `isMobile`, so every mobile device
  is low. The same tier chain given the hardware test alone,
  `Tier(slow, mobile, LowHardware(env))`, treats a mobile device and weak
  hardware as separate factors, and under it a mobile device with good
  hardware would be medium. `ModelLoader.CodeVersusTable`
  states exactly where the two differ.
- The code has no background upgrade from a reduced to a full asset, no
  shared asset cache and no error for unknown assets. `getOptimalModelPath`
  falls back to `/<name>.glb` and never fails, and the landing page never
  calls the loader (`HomePage.PathsVersusLoader`).
- The displayed progress copies the hook's value, so it can fall
  (`LoadProgress.DisplayNotMonotone`).
- After a path change the display is reset to 0. If the first load had
  already ended, the sync effect runs again at once and copies the hook's
  current value over that 0. A reveal timer from the previous path is not
  cancelled and can end the new first load
  (`LoadProgress.StaleRevealEndsNewFirstLoad`).

## Model

| member | source | states |
|---|---|---|
| `Js.SearchIgnoreCase` | lib/modelLoader.ts:27 | The scan answers true exactly when the pattern occurs at some offset, with ASCII letters compared case-insensitively. |
| `ModelLoader.TestMobileUserAgent` | lib/modelLoader.ts:27 | The user-agent test matches exactly when one of the eight mobile tokens occurs, ignoring case. |
| `ModelLoader.DetectDeviceCapabilities` | lib/modelLoader.ts:16-61 | With no window: all flags false and quality high. Mobile implies low-end. A slow or mobile device is low. Medium exactly when not slow, not mobile and low-end. High exactly when no flag holds. |
| `ModelLoader.MobileIffNarrowOrMobileAgent` | lib/modelLoader.ts:27 | Mobile holds iff the width is below 768 or the user agent matches. |
| `ModelLoader.SlowNeedsReportingConnection` | lib/modelLoader.ts:30-35 | Slow holds iff the first present connection reports `slow-2g`, `2g` or `saveData === true`. With no connection object it is never slow. |
| `ModelLoader.MissingHintsNeverLowEnd` | lib/modelLoader.ts:38-42 | Whatever the connection speed, with both hints present low-end holds iff mobile, at most 4 cores or at most 2 GB of memory. An undefined hint never makes a device low-end: with the core count undefined, low-end holds iff mobile or memory is at most 2; with the memory undefined, iff mobile or at most 4 cores; with both undefined, iff mobile. |
| `ModelLoader.CodeVersusTable` | lib/modelLoader.ts:38-53 | The code's tier differs from a reference table that keeps mobile and weak hardware apart exactly for a mobile, fast-connection device with adequate hardware. The code says low there; the table says medium. |
| `ModelLoader.GetOptimalModelPath` | lib/modelLoader.ts:66-89 | Lion: `/lion-mobile.glb` on mobile, `/lion.glb` otherwise. Dragon and trophy: their own file either way. Any other name: `/<name>.glb`. The result is never empty. |
| `ModelLoader.PathDependsOnlyOnMobile` | lib/modelLoader.ts:86-88 | Two capability records with the same mobile flag give the same path, whatever their quality or other flags. |
| `ModelLoader.PathIsNamedAsset` | lib/modelLoader.ts:70-88 | Every path is the name's own `.glb` file, except the lion's mobile variant. |
| `ModelLoader.ShouldUseAggressiveOptimizations` | lib/modelLoader.ts:94-97 | Aggressive exactly when the recommended quality is not high. Always aggressive on mobile. Never aggressive without a window. |
| `ModelLoader.GetOptimalRenderingSettings` | lib/modelLoader.ts:102-124 | Mobile: shadows and antialias off, pixel ratio 1, shadow map 256. Desktop: shadows and antialias on, shadow map 1024, pixel ratio the smaller of the device ratio and 2. The ratio is never above 2, and is 1 without a window. |
| `Awards.SplitJoin` | pages/winnings.tsx:16 | `split('/')` recovers the parts given to `join('/')` when no part contains a slash. |
| `Awards.KeyFromReversedFields` | pages/winnings.tsx:16-17 | The date key takes its year from the third `dd/mm/yyyy` field, its month from the second and its day from the first. A date parses only if there are three digit fields forming a real calendar day in a year from 100 to 275759. |
| `Awards.HeuristicDatesHaveNoKey` | pages/winnings.tsx:16-17 | 30 February, a year below 100 and a year past 275759 are not valid keys, while 2 March, 1999 and 275759 are; date strings naming the former get no key. |
| `Awards.FormatRoundTrip` | pages/winnings.tsx:16-17 | Every valid day with a four-digit year, written as `dd/mm/yyyy`, reads back as the same key. |
| `Awards.OrdinalOrdersLikeCalendar` | pages/winnings.tsx:16-18 | The day number orders valid keys by year, then month, then day. Equal numbers mean equal days. |
| `Awards.SortProperties` | pages/winnings.tsx:15-19 | The insertion sort gives a permutation of its input, non-increasing in the key. It is stable: elements with any one key keep their input order. |
| `Awards.SortAwardsByDate` | pages/winnings.tsx:14-20 | The result is a new list of the same length holding the same awards, newest date first, with same-day awards in input order. |
| `AchievementsPage.AwardsShown` | pages/winnings.tsx:167-169 | Page 1 computes the national list and the other pages the international list, each newest first. Only pages 1 and 2 render it; page 3 shows the gallery. |
| `AchievementsPage.Content` | pages/winnings.tsx:322-361 | The body is the gallery exactly on page 3; otherwise it is the award table, holding the national awards on page 1 and the international awards elsewhere. |
| `AchievementsPage.Subtitle` | pages/winnings.tsx:279 | The heading reads "National Level" exactly on page 1, "World & International Level" exactly on page 2, and "Gallery" on every other page. |
| `AchievementsPage.SubtitleNamesContent` | pages/winnings.tsx:279-361 | On pages 1..3 the heading says "Gallery" exactly when the gallery is shown, and otherwise names the list whose sorted rows the table holds. |
| `AchievementsPage.ChangePage` | pages/winnings.tsx:185-189 | The page becomes the requested one. The revealed rows are emptied only when the page number changes. The viewer is untouched. |
| `AchievementsPage.ApplyEntry` | pages/winnings.tsx:199-209 | An entry's row is revealed iff it intersects. Every other row keeps its state. |
| `AchievementsPage.BatchFollowsLastReport` | pages/winnings.tsx:196-210 | After a batch of entries, a row is revealed iff its last report intersects. A row with no report keeps its previous state. |
| `AchievementsPage.GalleryArrowsInverse` | pages/winnings.tsx:396-425 | The viewer's previous `(i-1+9)%9` and next `(i+1)%9` stay within the nine images and undo each other. |
| `AchievementsPage.Step` | pages/winnings.tsx:196-428 | The previous arrow leaves the state unchanged on page 1 and the next arrow on page 3; otherwise they move one page. A page button selects its page. Nothing else changes the page. A page change clears the revealed rows. An observer batch only updates the revealed rows, by `ApplyEntries`. A thumbnail opens its image on page 3 only. The viewer's next and previous move to `GalleryNext`/`GalleryPrev` of the open image and do nothing when it is closed. Closing clears the image. Every event keeps the page in 1..3 and the viewer on an image. |
| `AchievementsPage.RunStaysValid` | pages/winnings.tsx:160-163 | From any valid state, any event sequence keeps the page in 1..3 and the viewer index in 0..8. |
| `Carousel.NextPrevInverse` | pages/lion.tsx:32-42 | `goToNext` and `goToPrev` keep the index in [0, n) and are mutual inverses. |
| `Carousel.NeighboursInRange` | pages/lion.tsx:106-109 | With n ≥ 2 the four neighbour indices are slides. The far ones are two steps of next or previous. |
| `Carousel.DragProgress` | pages/lion.tsx:100-103 | The progress lies in [-1, 1] and equals offset/200 within ±200. It saturates beyond that and has the offset's sign. |
| `Carousel.HandleMove` | pages/lion.tsx:53-57 | When not dragging, nothing changes. During a drag, only the offset changes, to the cursor's distance from the press position. |
| `Carousel.HandleRelease` | pages/lion.tsx:59-66 | When not dragging, nothing changes. Otherwise an offset above 100 goes to the previous slide and one below -100 to the next; ±100 and anything between keep the slide. The drag always ends with offset 0. |
| `Carousel.ReleaseIdempotent` | pages/lion.tsx:88-98 | A second release, as the document-level listener delivers, changes nothing more. |
| `Carousel.Step` | pages/lion.tsx:32-86 | Each event preserves the invariant: index in range, offset 0 outside a drag, no open viewer where nothing opens it. Next and previous move to the next or previous slide when the page has arrows or the viewer is open, and do nothing otherwise. A dot selects exactly its slide. A press starts a drag at its position. A move is `HandleMove` and a release is `HandleRelease`, so the ±100 threshold decides the slide. A click on the centred slide opens the viewer exactly when the page allows it and no drag is in progress, and nothing else opens it. Closing the viewer clears its flag and nothing else. |
| `Carousel.RunKeepsInv` | pages/lion.tsx:24-28 | Every state reached by a sequence of events keeps the invariant. |
| `LionPage.FiveDistinctSlides` | pages/lion.tsx:106-109 | With six slides the five drawn positions show five different images. |
| `LionPage.ViewerOpensOnClick` | pages/lion.tsx:163 | A click event on the centred slide opens the viewer when no drag is in progress, and does nothing while one is. |
| `LionPage.ShortDragThenClickOpens` | pages/lion.tsx:59-66 | A press, a move of at most 100 pixels, the release and then the click the browser delivers after it open the viewer on the unchanged slide: the release has ended the drag before the click arrives. |
| `LionPage.ArrowsOnlyInViewer` | pages/lion.tsx:207-227 | The lion page's previous/next controls exist only inside the open viewer. |
| `DragonPage.TwoSlideNeighbours` | pages/dragon.tsx:102-105 | With two slides, next and previous are both the other slide. The far neighbours are the current slide. |
| `DragonPage.ViewerNeverOpens` | pages/dragon.tsx:169 | The centred slide has no click handler, so after any events the viewer flag is still false. |
| `LoadProgress.SyncEffect` | components/ModelViewerWithProgress.tsx:30-43 | During the first load, a positive value is copied to the display, and a value of 100 or more schedules one reveal. A value of 0 changes nothing. After the first load the display is 100. |
| `LoadProgress.Mount` | components/ModelViewerWithProgress.tsx:19-20 | The component starts in its first load, showing 0, or the hook's value if that is positive. |
| `LoadProgress.ChangePath` | components/ModelViewerWithProgress.tsx:23-28 | A path change restarts the first load with display 0. If the first load had ended, the display is the hook's current value when positive. |
| `LoadProgress.Reveal` | components/ModelViewerWithProgress.tsx:34-38 | A fired reveal ends the first load and pins the display at 100. |
| `LoadProgress.Step` | components/ModelViewerWithProgress.tsx:23-43 | Each event keeps "after the first load the display is 100". Only a fired reveal ends a first load. A reveal is scheduled only while in first load with the value at or above 100. A new positive value during the first load is displayed. A 0 changes only the recorded value, and a repeated value changes nothing. A path change is `ChangePath`, with its re-sync to the hook's value. A fired reveal is `Reveal`, and with no timer pending nothing happens. |
| `LoadProgress.DisplayNotMonotone` | components/ModelViewerWithProgress.tsx:30-33 | During the first load a hook value that drops (60 to 40) drops on screen too: the display is a copy, not a running maximum. |
| `LoadProgress.StaleRevealEndsNewFirstLoad` | components/ModelViewerWithProgress.tsx:23-38 | A reveal scheduled at 100 before a path change survives the reset: after the change the first load restarts at 0, and the old timer then ends it and shows the scene. |
| `LoadProgress.ShowsModelIffLoaded` | components/ModelViewerWithProgress.tsx:46-54 | Under the invariant the model scene renders exactly when the first load is over; otherwise the progress bar renders. |
| `LoadProgress.RunKeepsInv` | components/ModelViewerWithProgress.tsx:40-54 | After mounting, any events keep the invariant. The scene is shown exactly when the first load has ended. |
| `ProgressBar.BandOf` | components/ProgressBar.tsx:38-41 | The bands are below 30, 30 to below 70, 70 to below 100, and 100 up. Each value lies in exactly one. |
| `ProgressBar.StatusLabel` | components/ProgressBar.tsx:38-41 | The text is "Downloading...", "Processing...", "Almost ready..." or "Loading..." exactly on those bands. |
| `ProgressBar.BandMonotone` | components/ProgressBar.tsx:38-41 | A larger value never falls in an earlier band. |
| `ProgressBar.BarWidth` | components/ProgressBar.tsx:27 | The width is never above 100. It equals the value up to 100, and is 100 from there on. |
| `ProgressBar.Percentage` | components/ProgressBar.tsx:33 | The percentage is the integer within half a unit of the value, with halves rounded up. Values in [0, 100] give 0..100. |
| `HomePage.TabOfKey` | components/TabBar.tsx:5 | Exactly the three tab keys name a tab, and each reads back to its own key. |
| `HomePage.ModelPath` | pages/index.tsx:15-19 | lion gives `/lion.glb`, dragon gives `/dragon.glb` and achievement gives `/trophy.glb`. Each tab's file is its asset's own `.glb`. |
| `HomePage.TabUpdate` | pages/index.tsx:24-28 | A state update is requested exactly when the chosen tab differs from the active one, and it sets the chosen tab. |
| `HomePage.HandleTabChange` | pages/index.tsx:24-28 | Whether or not an update is requested, the chosen tab is the active one afterwards. |
| `HomePage.TabChangeIdempotent` | pages/index.tsx:24-28 | Choosing the same tab twice equals choosing it once. |
| `HomePage.InitialView` | pages/index.tsx:21-46 | The page starts on the lion tab, whose key reads back to it, with heading "LION" and the file `/lion.glb` on any device. |
| `HomePage.Title` | pages/index.tsx:38 | The heading always equals the upper-cased tab key. The special case for the achievement tab agrees with it. |
| `HomePage.PathsVersusLoader` | pages/index.tsx:46 | The page's file for a tab equals the loader's desktop choice. On a mobile device it differs only for the lion tab, because the page never consults the loader. |

## Left out

- 3D rendering, lighting, camera controls and the model scale/position tweaks in components/ModelViewer.tsx. They configure a graphics library that is not part of this model, mostly with floating-point constants.
- The card flip and staggered reveals in pages/jason-tan.tsx, the flip in components/ContactModal.tsx, the 50 ms `justChangedIndex` flags, and the progress bar's 50 ms display delay. These are wall-clock animation timing. The progress bar is modelled as a function of the value it displays.
- The smooth `window.scrollTo` to the top when the achievements page changes, and the back-to-top button's scroll. Scrolling is browser I/O; `AchievementsPage.ChangePage` models the state change only.
- Clipboard, sharing and the vCard download in pages/jason-tan.tsx, router navigation, scroll listeners (the back-to-top flag), image preloading in components/FallbackImage.tsx, and the IntersectionObserver wiring with its 100 ms setup delay. These are browser I/O. The observer's callback is modelled as batches of entries.
- CSS transform and opacity formulas in the carousel markup. These are floating-point presentation only.
- The award tables of pages/winnings.tsx. The page model takes the national and international lists as parameters.
- Awards.SortAwardsByDate: requires every date to parse as a real calendar day in a year from 100 to 275759. A JavaScript time value ends in September 275760, so later dates are Invalid Date, the comparator returns NaN and the order is implementation-defined; the days of 275760 the time value still reaches are left out with them. `yyyy/mm/dd` is not the ECMAScript date-time string format, so the engine parses these strings by its own heuristics: V8 rolls days 29-31 over into the next month (`30/02/2003` is 2 March) and reads years 0-99 as 19xx or 20xx. The model reads dates as calendar days and gives such strings no key (`Awards.HeuristicDatesHaveNoKey`), so their order is not modelled. The award tables use four-digit years and real days only. `getTime` is modelled by the (year, month, day) key, with time of day and time zone left out.
- Carousel.Step: models one release per gesture. The document-level listeners could deliver a second release through a stale closure before React re-renders, and that interleaving depends on React's scheduling, which is not modelled. A second release after the state update is a no-op (`Carousel.ReleaseIdempotent`).
- Carousel.Step: mouse and touch handlers are one event each, because their bodies are identical.
- ModelLoader.DetectDeviceCapabilities: `isSlowConnection` is `undefined` rather than `false` when no connection object exists. The model uses its truthiness, which is all the callers use. NaN and non-numeric hint values are not modelled.
- Js.SearchIgnoreCase: folds ASCII letters only. This matches a non-Unicode `/i` expression on the ASCII tokens used. `HomePage.Title` upper-cases ASCII only, which covers the three tab keys.
- components/LoadingSpinner.tsx, the rest of components/TabBar.tsx and next.config.ts are markup or build configuration.

=== FILE: achievements_page.dfy ===
/** The achievements page (pages/winnings.tsx): three pages (national
    awards, international awards, a photo gallery), the arrows and page
    buttons between them, the gallery's full-screen viewer, and the set of
    rows revealed by intersection events. */
module AchievementsPage {
  import opened Wrappers
  import Js
  import Awards

  const PageCount: int := 3
  const GalleryCount: int := 9

  type PageNumber = p: int | 1 <= p <= PageCount witness 1

  /** One intersection-observer entry: the row's `data-index` and whether it
      is now in view. */
  datatype Entry = Entry(index: int, isIntersecting: bool)

  /** The page's React state (the back-to-top flag, driven by scrolling, is
      not modelled). */
  datatype State = State(currentPage: int, visibleItems: set<int>, selectedImage: Option<int>)

  datatype Event =
    | PrevArrow
    | NextArrow
    | PageButton(page: PageNumber)
    | Observe(entries: seq<Entry>)
    | OpenImage(image: int)
    | ModalPrev
    | ModalNext
    | CloseModal

  predicate Valid(s: State)
  {
    1 <= s.currentPage <= PageCount &&
    (s.selectedImage.Some? ==> 0 <= s.selectedImage.value < GalleryCount)
  }

  /** The list the page computes: the national awards on page 1 and the
      international ones on any other page, each newest first. Only pages 1
      and 2 render it (`Content`); page 3 shows the gallery. */
  function AwardsShown(page: int, national: seq<Awards.Award>, international: seq<Awards.Award>)
    : (shown: seq<Awards.Award>)
    requires Awards.AllDated(national) && Awards.AllDated(international)
    ensures page == 1 ==> multiset(shown) == multiset(national)
    ensures page != 1 ==> multiset(shown) == multiset(international)
    ensures Awards.AllDated(shown)
    ensures forall i, j :: 0 <= i < j < |shown| ==>
              Awards.NotAfter(Awards.DateKeyOf(shown[j].date).value, Awards.DateKeyOf(shown[i].date).value)
  {
    if page == 1 then Awards.SortAwardsByDate(national) else Awards.SortAwardsByDate(international)
  }

  /** What the page body shows: the award table or the photo gallery. */
  datatype View = AwardTable(rows: seq<Awards.Award>) | Gallery

  /** The body: the award table on pages other than 3, the gallery on page 3. */
  function Content(page: int, national: seq<Awards.Award>, international: seq<Awards.Award>)
    : (v: View)
    requires Awards.AllDated(national) && Awards.AllDated(international)
    ensures v.Gallery? <==> page == PageCount
    ensures v.AwardTable? ==> multiset(v.rows) == multiset(if page == 1 then national else international)
  {
    if page == PageCount then Gallery else AwardTable(AwardsShown(page, national, international))
  }

  /** The heading under the title. */
  function Subtitle(page: int): (text: string)
    ensures text == "National Level" <==> page == 1
    ensures text == "World & International Level" <==> page == 2
    ensures text == "Gallery" <==> page != 1 && page != 2
  {
    if page == 1 then "National Level"
    else if page == 2 then "World & International Level"
    else "Gallery"
  }

  /** On every reachable page the heading names what the body shows: the
      gallery exactly when it says "Gallery", otherwise the sorted list the
      heading names. */
  lemma SubtitleNamesContent(page: PageNumber, national: seq<Awards.Award>, international: seq<Awards.Award>)
    requires Awards.AllDated(national) && Awards.AllDated(international)
    ensures Content(page, national, international).Gallery? <==> Subtitle(page) == "Gallery"
    ensures Subtitle(page) == "National Level" ==>
              Content(page, national, international) == AwardTable(Awards.SortAwardsByDate(national))
    ensures Subtitle(page) == "World & International Level" ==>
              Content(page, national, international) == AwardTable(Awards.SortAwardsByDate(international))
  {
  }

  /** `handlePageChange` followed by the effect keyed on `currentPage`:
      the revealed rows are cleared only when the page number actually
      changes (an effect whose dependency is unchanged does not run). */
  function ChangePage(s: State, page: int): (s': State)
    ensures s'.currentPage == page
    ensures s'.selectedImage == s.selectedImage
    ensures page != s.currentPage ==> s'.visibleItems == {}
    ensures page == s.currentPage ==> s' == s
  {
    if page == s.currentPage then s
    else s.(currentPage := page, visibleItems := {})
  }

  /** One entry's update of the revealed rows. */
  function ApplyEntry(visible: set<int>, e: Entry): (r: set<int>)
    ensures e.index in r <==> e.isIntersecting
    ensures forall j :: j != e.index ==> (j in r <==> j in visible)
  {
    if e.isIntersecting then visible + {e.index} else visible - {e.index}
  }

  /** The observer callback walks its entries in order. */
  function ApplyEntries(visible: set<int>, entries: seq<Entry>): set<int>
    decreases |entries|
  {
    if |entries| == 0 then visible
    else ApplyEntries(ApplyEntry(visible, entries[0]), entries[1..])
  }

  /** The last entry reported for row `j`, if any. */
  function LastReport(entries: seq<Entry>, j: int): Option<bool>
    decreases |entries|
  {
    if |entries| == 0 then None
    else if entries[|entries| - 1].index == j then Some(entries[|entries| - 1].isIntersecting)
    else LastReport(entries[..|entries| - 1], j)
  }

  /** Appending one entry to a batch applies it last. */
  lemma {:induction false} ApplyEntriesSnoc(visible: set<int>, entries: seq<Entry>, e: Entry)
    ensures ApplyEntries(visible, entries + [e]) == ApplyEntry(ApplyEntries(visible, entries), e)
    decreases |entries|
  {
    if |entries| > 0 {
      assert (entries + [e])[1..] == entries[1..] + [e];
      ApplyEntriesSnoc(ApplyEntry(visible, entries[0]), entries[1..], e);
    }
  }

  /** After a batch, a row is revealed exactly when its last report says it
      intersects; a row with no report keeps its previous state. */
  lemma {:induction false} BatchFollowsLastReport(visible: set<int>, entries: seq<Entry>, j: int)
    ensures j in ApplyEntries(visible, entries) <==>
              (match LastReport(entries, j)
               case Some(b) => b
               case None => j in visible)
    decreases |entries|
  {
    if |entries| > 0 {
      var init := entries[..|entries| - 1];
      var e := entries[|entries| - 1];
      assert entries == init + [e];
      ApplyEntriesSnoc(visible, init, e);
      BatchFollowsLastReport(visible, init, j);
    }
  }

  function GalleryNext(i: int): int
    requires 0 <= i < GalleryCount
  {
    Js.Rem(i + 1, GalleryCount)
  }

  function GalleryPrev(i: int): int
    requires 0 <= i < GalleryCount
  {
    Js.Rem(i - 1 + GalleryCount, GalleryCount)
  }

  /** The viewer's arrows stay on a gallery image and undo each other. */
  lemma GalleryArrowsInverse(i: int)
    requires 0 <= i < GalleryCount
    ensures 0 <= GalleryNext(i) < GalleryCount && 0 <= GalleryPrev(i) < GalleryCount
    ensures GalleryPrev(GalleryNext(i)) == i && GalleryNext(GalleryPrev(i)) == i
  {
    Js.RemOfSmall(i + 1, GalleryCount);
    Js.RemOfSmall(i - 1 + GalleryCount, GalleryCount);
    Js.RemOfSmall(GalleryNext(i) - 1 + GalleryCount, GalleryCount);
    Js.RemOfSmall(GalleryPrev(i) + 1, GalleryCount);
  }

  /** Thumbnails exist only for the nine gallery images. */
  predicate Deliverable(e: Event)
  {
    e.OpenImage? ==> 0 <= e.image < GalleryCount
  }

  /** One user or observer event. A disabled arrow (previous on page 1,
      next on page 3), a thumbnail off the gallery page and a viewer
      button while the viewer is closed deliver nothing. */
  function Step(s: State, e: Event): (s': State)
    requires Valid(s) && Deliverable(e)
    ensures Valid(s')
    ensures e.PrevArrow? ==> s'.currentPage == (if s.currentPage == 1 then 1 else s.currentPage - 1)
    ensures e.NextArrow? ==> s'.currentPage == (if s.currentPage == PageCount then PageCount else s.currentPage + 1)
    ensures e.PageButton? ==> s'.currentPage == e.page
    ensures !(e.PrevArrow? || e.NextArrow? || e.PageButton?) ==> s'.currentPage == s.currentPage
    ensures s'.currentPage != s.currentPage ==> s'.visibleItems == {}
    ensures e.PrevArrow? && s.currentPage == 1 ==> s' == s
    ensures e.NextArrow? && s.currentPage == PageCount ==> s' == s
    ensures e.Observe? ==> s' == s.(visibleItems := ApplyEntries(s.visibleItems, e.entries))
    ensures e.OpenImage? ==> s' == (if s.currentPage == PageCount then s.(selectedImage := Some(e.image)) else s)
    ensures e.ModalNext? && s.selectedImage.Some? ==> s' == s.(selectedImage := Some(GalleryNext(s.selectedImage.value)))
    ensures e.ModalPrev? && s.selectedImage.Some? ==> s' == s.(selectedImage := Some(GalleryPrev(s.selectedImage.value)))
    ensures (e.ModalNext? || e.ModalPrev?) && s.selectedImage.None? ==> s' == s
    ensures e.CloseModal? ==> s' == s.(selectedImage := None)
  {
    match e
    case PrevArrow => if s.currentPage == 1 then s else ChangePage(s, s.currentPage - 1)
    case NextArrow => if s.currentPage == PageCount then s else ChangePage(s, s.currentPage + 1)
    case PageButton(p) => ChangePage(s, p)
    case Observe(entries) => s.(visibleItems := ApplyEntries(s.visibleItems, entries))
    case OpenImage(i) => if s.currentPage == 3 then s.(selectedImage := Some(i)) else s
    case ModalPrev =>
      if s.selectedImage.None? then s
      else
        GalleryArrowsInverse(s.selectedImage.value);
        s.(selectedImage := Some(GalleryPrev(s.selectedImage.value)))
    case ModalNext =>
      if s.selectedImage.None? then s
      else
        GalleryArrowsInverse(s.selectedImage.value);
        s.(selectedImage := Some(GalleryNext(s.selectedImage.value)))
    case CloseModal => s.(selectedImage := None)
  }

  function Run(s: State, events: seq<Event>): State
    requires Valid(s)
    requires forall k :: 0 <= k < |events| ==> Deliverable(events[k])
    decreases |events|
  {
    if |events| == 0 then s
    else
      assert Deliverable(events[0]);
      Run(Step(s, events[0]), events[1..])
  }

  /** From any valid state, any sequence of events keeps the page number in
      1..3 and the viewer on one of the nine images. */
  lemma {:induction false} RunStaysValid(s: State, events: seq<Event>)
    requires Valid(s)
    requires forall k :: 0 <= k < |events| ==> Deliverable(events[k])
    ensures Valid(Run(s, events))
    decreases |events|
  {
    if |events| > 0 {
      RunStaysValid(Step(s, events[0]), events[1..]);
    }
  }
}

=== FILE: awards.dfy ===
/** Award records and `sortAwardsByDate` (pages/winnings.tsx). A date is
    written `dd/mm/yyyy`; its sort key is obtained by splitting on '/',
    reversing the parts and re-joining them into a `yyyy/mm/dd` string that
    the date constructor reads. */
module Awards {
  import opened Wrappers

  datatype Award = Award(date: string, title: string, result: string)

  /** A calendar day; keys compare by year, then month, then day. */
  datatype DateKey = DateKey(year: nat, month: nat, day: nat)

  const Slash: char := '/'

  // ----- String.prototype.split and Array.prototype.join on one separator -----

  function Split(s: string, sep: char): (parts: seq<string>)
    ensures |parts| >= 1
    decreases |s|
  {
    if |s| == 0 then [""]
    else if s[0] == sep then [""] + Split(s[1..], sep)
    else
      var rest := Split(s[1..], sep);
      [[s[0]] + rest[0]] + rest[1..]
  }

  function Join(parts: seq<string>, sep: char): string
    requires |parts| >= 1
    decreases |parts|
  {
    if |parts| == 1 then parts[0] else parts[0] + [sep] + Join(parts[1..], sep)
  }

  function Reverse<T>(xs: seq<T>): (r: seq<T>)
    ensures |r| == |xs|
    ensures forall i :: 0 <= i < |xs| ==> r[i] == xs[|xs| - 1 - i]
  {
    if |xs| == 0 then [] else Reverse(xs[1..]) + [xs[0]]
  }

  /** Splitting a string that starts with a separator-free prefix and a
      separator peels that prefix off as the first part. */
  lemma {:induction false} SplitPrefix(a: string, sep: char, rest: string)
    requires sep !in a
    ensures Split(a + [sep] + rest, sep) == [a] + Split(rest, sep)
    decreases |a|
  {
    if |a| == 0 {
      assert a + [sep] + rest == [sep] + rest;
      assert ([sep] + rest)[1..] == rest;
    } else {
      var s := a + [sep] + rest;
      assert s[0] == a[0];
      assert s[1..] == a[1..] + [sep] + rest;
      SplitPrefix(a[1..], sep, rest);
      assert [a[0]] + a[1..] == a;
    }
  }

  /** A string without the separator splits into itself. */
  lemma {:induction false} SplitNoSeparator(s: string, sep: char)
    requires sep !in s
    ensures Split(s, sep) == [s]
    decreases |s|
  {
    if |s| > 0 {
      assert sep !in s[1..];
      SplitNoSeparator(s[1..], sep);
      assert [s[0]] + s[1..] == s;
    }
  }

  /** `split` undoes `join` when no part contains the separator. */
  lemma {:induction false} SplitJoin(parts: seq<string>, sep: char)
    requires |parts| >= 1
    requires forall i :: 0 <= i < |parts| ==> sep !in parts[i]
    ensures Split(Join(parts, sep), sep) == parts
    decreases |parts|
  {
    if |parts| == 1 {
      SplitNoSeparator(parts[0], sep);
    } else {
      SplitJoin(parts[1..], sep);
      SplitPrefix(parts[0], sep, Join(parts[1..], sep));
      assert [parts[0]] + parts[1..] == parts;
    }
  }

  // ----- digits and calendar validity -----

  predicate IsDigit(c: char)
  {
    '0' <= c <= '9'
  }

  predicate AllDigits(s: string)
  {
    |s| > 0 && forall i :: 0 <= i < |s| ==> IsDigit(s[i])
  }

  /** The decimal value of a digit string, most significant digit first. */
  function DigitsValue(s: string): nat
    requires forall i :: 0 <= i < |s| ==> IsDigit(s[i])
    decreases |s|
  {
    if |s| == 0 then 0
    else
      var last := s[|s| - 1];
      assert IsDigit(last);
      DigitsValue(s[..|s| - 1]) * 10 + (last as int - '0' as int)
  }

  predicate IsLeapYear(y: nat)
  {
    (y % 4 == 0 && y % 100 != 0) || y % 400 == 0
  }

  function DaysInMonth(y: nat, m: nat): nat
    requires 1 <= m <= 12
  {
    if m == 2 then (if IsLeapYear(y) then 29 else 28)
    else if m == 4 || m == 6 || m == 9 || m == 11 then 30
    else 31
  }

  /** Years below this are remapped by browser date heuristics (V8 reads 0-49
      as 20xx and 50-99 as 19xx), so the model does not give them a day. */
  const MinYear: nat := 100

  /** The last whole year a JavaScript time value reaches: it stops at
      8.64e15 ms, in September 275760, and later dates are Invalid Date. */
  const MaxYear: nat := 275759

  /** A real calendar day in a year the engines read literally and a time
      value can hold. */
  predicate ValidKey(k: DateKey)
  {
    MinYear <= k.year <= MaxYear && 1 <= k.month <= 12 && 1 <= k.day <= DaysInMonth(k.year, k.month)
  }

  /** Reading a `yyyy/mm/dd` string: three digit groups forming a real day
      in a year from 100 to 275759. `yyyy/mm/dd` is not the ECMAScript date-time format,
      so the engine reads it by its own heuristics; the model gives a key only
      where it reads the string as that calendar day, and `None` otherwise. */
  function ParseYmd(s: string): (k: Option<DateKey>)
    ensures k.Some? ==> ValidKey(k.value)
  {
    var parts := Split(s, Slash);
    if |parts| == 3 && AllDigits(parts[0]) && AllDigits(parts[1]) && AllDigits(parts[2]) then
      var key := DateKey(DigitsValue(parts[0]), DigitsValue(parts[1]), DigitsValue(parts[2]));
      if ValidKey(key) then Some(key) else None
    else None
  }

  /** A day a browser reaches only by rolling over into the next month, a
      year below 100 that it remaps, or a year past the time value's range
      is not a valid key, so (by `KeyFromReversedFields`) a date string
      naming it has no key. */
  lemma HeuristicDatesHaveNoKey()
    ensures !ValidKey(DateKey(2003, 2, 30)) && ValidKey(DateKey(2003, 3, 2))
    ensures !ValidKey(DateKey(99, 1, 1)) && ValidKey(DateKey(1999, 1, 1))
    ensures !ValidKey(DateKey(300000, 1, 1)) && ValidKey(DateKey(275759, 12, 31))
  {
  }

  /** `new Date(date.split('/').reverse().join('/'))`, as a calendar key. */
  function DateKeyOf(date: string): Option<DateKey>
  {
    ParseYmd(Join(Reverse(Split(date, Slash)), Slash))
  }

  /** The re-joined string splits back into the reversed parts, so the key
      takes its year from the last `dd/mm/yyyy` field and its day from the first. */
  lemma KeyFromReversedFields(date: string)
    ensures var f := Split(date, Slash);
            DateKeyOf(date) ==
              if |f| == 3 && AllDigits(f[0]) && AllDigits(f[1]) && AllDigits(f[2]) &&
                 ValidKey(DateKey(DigitsValue(f[2]), DigitsValue(f[1]), DigitsValue(f[0])))
              then Some(DateKey(DigitsValue(f[2]), DigitsValue(f[1]), DigitsValue(f[0])))
              else None
  {
    var f := Split(date, Slash);
    SplitHasNoSeparator(date, Slash);
    var r := Reverse(f);
    assert forall i :: 0 <= i < |r| ==> Slash !in r[i];
    SplitJoin(r, Slash);
  }

  /** No part produced by `Split` contains the separator. */
  lemma {:induction false} SplitHasNoSeparator(s: string, sep: char)
    ensures forall i :: 0 <= i < |Split(s, sep)| ==> sep !in Split(s, sep)[i]
    decreases |s|
  {
    if |s| > 0 {
      SplitHasNoSeparator(s[1..], sep);
    }
  }

  // ----- formatting, for the round trip -----

  function DigitChar(d: nat): char
    requires d < 10
  {
    ('0' as int + d) as char
  }

  /** `n` written with exactly `width` digits, zero-padded. */
  function Pad(n: nat, width: nat): (s: string)
    ensures |s| == width
    ensures forall i :: 0 <= i < |s| ==> IsDigit(s[i])
  {
    if width == 0 then "" else Pad(n / 10, width - 1) + [DigitChar(n % 10)]
  }

  lemma {:induction false} PadValue(n: nat, width: nat)
    requires n < Pow10(width)
    ensures DigitsValue(Pad(n, width)) == n
  {
    if width > 0 {
      var s := Pad(n, width);
      assert s[..|s| - 1] == Pad(n / 10, width - 1);
      PadValue(n / 10, width - 1);
    }
  }

  function Pow10(k: nat): (p: nat)
    ensures p >= 1
  {
    if k == 0 then 1 else 10 * Pow10(k - 1)
  }

  /** How the award tables write a date. */
  function FormatDate(k: DateKey): string
  {
    Pad(k.day, 2) + [Slash] + Pad(k.month, 2) + [Slash] + Pad(k.year, 4)
  }

  /** Every valid day with a four-digit year written as `dd/mm/yyyy` reads
      back as itself: the reverse-and-join trick recovers the key exactly. */
  lemma FormatRoundTrip(k: DateKey)
    requires ValidKey(k) && k.year < 10000
    ensures DateKeyOf(FormatDate(k)) == Some(k)
  {
    var d, m, y := Pad(k.day, 2), Pad(k.month, 2), Pad(k.year, 4);
    assert Slash !in d && Slash !in m && Slash !in y;
    SplitJoin([d, m, y], Slash);
    assert Join([d, m, y], Slash) == FormatDate(k) by {
      assert [d, m, y][1..] == [m, y];
      assert [m, y][1..] == [y];
      assert Join([y], Slash) == y;
      assert Join([m, y], Slash) == m + [Slash] + y;
      assert Join([d, m, y], Slash) == d + [Slash] + (m + [Slash] + y);
    }
    assert Pow10(2) == 100 && Pow10(4) == 10000 by {
      assert Pow10(1) == 10;
      assert Pow10(3) == 1000;
    }
    PadValue(k.day, 2);
    PadValue(k.month, 2);
    PadValue(k.year, 4);
    KeyFromReversedFields(FormatDate(k));
  }

  // ----- the sort -----

  predicate Dated(a: Award)
  {
    DateKeyOf(a.date).Some?
  }

  predicate AllDated(s: seq<Award>)
  {
    forall i :: 0 <= i < |s| ==> Dated(s[i])
  }

  /** A day number that orders valid keys like the calendar does. */
  function Ordinal(k: DateKey): int
  {
    k.year * 10000 + k.month * 100 + k.day
  }

  /** `k1` is no later than `k2`: year first, then month, then day. */
  predicate NotAfter(k1: DateKey, k2: DateKey)
  {
    k1.year < k2.year ||
    (k1.year == k2.year && (k1.month < k2.month || (k1.month == k2.month && k1.day <= k2.day)))
  }

  lemma OrdinalOrdersLikeCalendar(k1: DateKey, k2: DateKey)
    requires ValidKey(k1) && ValidKey(k2)
    ensures Ordinal(k1) <= Ordinal(k2) <==> NotAfter(k1, k2)
    ensures Ordinal(k1) == Ordinal(k2) <==> k1 == k2
  {
  }

  /** The comparator's time value of an award, as a day number; an award
      without a valid date has none (-1 stands in, and the sort below is
      only used on dated awards). */
  function DayNumber(a: Award): int
  {
    match DateKeyOf(a.date)
    case Some(k) => Ordinal(k)
    case None => -1
  }

  // ----- a stable descending insertion sort on an integer key -----

  predicate NonIncreasing<T>(s: seq<T>, key: T -> int)
  {
    forall i, j :: 0 <= i < j < |s| ==> key(s[j]) <= key(s[i])
  }

  /** The elements of `s` whose key is `k`, in their order in `s`. */
  function WithKey<T>(s: seq<T>, key: T -> int, k: int): seq<T>
    decreases |s|
  {
    if |s| == 0 then []
    else (if key(s[0]) == k then [s[0]] else []) + WithKey(s[1..], key, k)
  }

  /** Places `x` before the first element whose key is not above its own,
      so an earlier input element stays ahead of later ones with the same key. */
  function InsertBy<T>(x: T, t: seq<T>, key: T -> int): seq<T>
    decreases |t|
  {
    if |t| == 0 then [x]
    else if key(t[0]) <= key(x) then [x] + t
    else [t[0]] + InsertBy(x, t[1..], key)
  }

  function SortBy<T>(s: seq<T>, key: T -> int): seq<T>
    decreases |s|
  {
    if |s| == 0 then [] else InsertBy(s[0], SortBy(s[1..], key), key)
  }

  lemma {:induction false} InsertPermutes<T>(x: T, t: seq<T>, key: T -> int)
    ensures multiset(InsertBy(x, t, key)) == multiset(t) + multiset{x}
    decreases |t|
  {
    if |t| > 0 && key(t[0]) > key(x) {
      InsertPermutes(x, t[1..], key);
      assert t == [t[0]] + t[1..];
    }
  }

  /** The head of an insertion is the inserted element or the old head. */
  lemma InsertHead<T>(x: T, t: seq<T>, key: T -> int)
    ensures InsertBy(x, t, key)[0] == x || (|t| > 0 && InsertBy(x, t, key)[0] == t[0])
  {
  }

  lemma {:induction false} InsertKeepsOrder<T>(x: T, t: seq<T>, key: T -> int)
    requires NonIncreasing(t, key)
    ensures NonIncreasing(InsertBy(x, t, key), key)
    decreases |t|
  {
    if |t| == 0 {
    } else if key(t[0]) <= key(x) {
      var r := [x] + t;
      forall i, j | 0 <= i < j < |r|
        ensures key(r[j]) <= key(r[i])
      {
        if i > 0 {
          assert r[i] == t[i - 1] && r[j] == t[j - 1];
        } else {
          assert r[j] == t[j - 1];
          assert key(t[j - 1]) <= key(t[0]);
        }
      }
    } else {
      var tail := InsertBy(x, t[1..], key);
      InsertKeepsOrder(x, t[1..], key);
      InsertHead(x, t[1..], key);
      assert key(tail[0]) <= key(t[0]);
      var r := [t[0]] + tail;
      forall i, j | 0 <= i < j < |r|
        ensures key(r[j]) <= key(r[i])
      {
        if i > 0 {
          assert r[i] == tail[i - 1] && r[j] == tail[j - 1];
        } else {
          assert r[j] == tail[j - 1];
          assert key(tail[j - 1]) <= key(tail[0]);
        }
      }
    }
  }

  lemma {:induction false} InsertWithKey<T>(x: T, t: seq<T>, key: T -> int, k: int)
    ensures WithKey(InsertBy(x, t, key), key, k) == (if key(x) == k then [x] else []) + WithKey(t, key, k)
    decreases |t|
  {
    var xs: seq<T> := if key(x) == k then [x] else [];
    if |t| == 0 {
      assert InsertBy(x, t, key) == [x];
      assert WithKey([x], key, k) == xs + WithKey([x][1..], key, k);
      assert [x][1..] == [];
    } else if key(t[0]) <= key(x) {
      var r := [x] + t;
      assert r[0] == x && r[1..] == t;
      assert WithKey(r, key, k) == xs + WithKey(t, key, k);
    } else {
      var tail := InsertBy(x, t[1..], key);
      InsertWithKey(x, t[1..], key, k);
      var r := [t[0]] + tail;
      assert r[0] == t[0] && r[1..] == tail;
      var ts: seq<T> := if key(t[0]) == k then [t[0]] else [];
      assert WithKey(r, key, k) == ts + WithKey(tail, key, k);
      assert WithKey(t, key, k) == ts + WithKey(t[1..], key, k);
      assert ts == [] || xs == [];
      if ts == [] {
        assert WithKey(r, key, k) == xs + WithKey(t[1..], key, k);
      } else {
        assert WithKey(r, key, k) == ts + WithKey(t[1..], key, k);
      }
    }
  }

  /** The sort permutes, orders by key descending, and is stable: the
      elements sharing any one key keep their input order. */
  lemma {:induction false} SortProperties<T>(s: seq<T>, key: T -> int)
    ensures multiset(SortBy(s, key)) == multiset(s)
    ensures NonIncreasing(SortBy(s, key), key)
    ensures forall k :: WithKey(SortBy(s, key), key, k) == WithKey(s, key, k)
    decreases |s|
  {
    if |s| > 0 {
      var rest := SortBy(s[1..], key);
      SortProperties(s[1..], key);
      InsertPermutes(s[0], rest, key);
      InsertKeepsOrder(s[0], rest, key);
      assert SortBy(s, key) == InsertBy(s[0], rest, key);
      forall k
        ensures WithKey(SortBy(s, key), key, k) == WithKey(s, key, k)
      {
        InsertWithKey(s[0], rest, key, k);
        assert WithKey(s, key, k) == (if key(s[0]) == k then [s[0]] else []) + WithKey(s[1..], key, k);
      }
      assert s == [s[0]] + s[1..];
    }
  }

  /** `sortAwardsByDate`: a new list, most recent first, holding exactly the
      input's awards, with same-day awards in their input order (the
      built-in sort is stable). The input, a value, is untouched. */
  function SortAwardsByDate(awards: seq<Award>): (sorted: seq<Award>)
    requires AllDated(awards)
    ensures |sorted| == |awards|
    ensures multiset(sorted) == multiset(awards)
    ensures AllDated(sorted)
    ensures forall i, j :: 0 <= i < j < |sorted| ==>
              NotAfter(DateKeyOf(sorted[j].date).value, DateKeyOf(sorted[i].date).value)
    ensures forall d :: WithKey(sorted, DayNumber, d) == WithKey(awards, DayNumber, d)
  {
    SortProperties(awards, DayNumber);
    var r := SortBy(awards, DayNumber);
    assert |r| == |multiset(r)| == |multiset(awards)| == |awards|;
    forall i | 0 <= i < |r|
      ensures Dated(r[i])
    {
      assert r[i] in multiset(awards);
    }
    forall i, j | 0 <= i < j < |r|
      ensures NotAfter(DateKeyOf(r[j].date).value, DateKeyOf(r[i].date).value)
    {
      assert DayNumber(r[j]) <= DayNumber(r[i]);
      OrdinalOrdersLikeCalendar(DateKeyOf(r[j].date).value, DateKeyOf(r[i].date).value);
    }
    r
  }
}

=== FILE: carousel.dfy ===
/** The drag/arrow image carousel shared by the lion and dragon galleries
    (pages/lion.tsx, pages/dragon.tsx): a current slide, a drag gesture
    measured from the press position, and a full-screen viewer. Mouse and
    touch handlers are identical and appear here as one press, move and
    release; the document-level release listeners call the same handlers. */
module Carousel {
  import Js

  /** `slides` is the image count. `currentOpensModal`: clicking the
      centred slide opens the viewer (lion only). `hasArrows`: previous/next
      buttons beside the carousel (dragon only); both pages also have
      previous/next buttons inside the viewer. */
  datatype Config = Config(slides: int, currentOpensModal: bool, hasArrows: bool)

  predicate ValidConfig(c: Config)
  {
    c.slides >= 2
  }

  datatype State = State(
    currentIndex: int,
    isDragging: bool,
    startX: real,
    dragOffset: real,
    isModalOpen: bool)

  datatype Event =
    | Next                   // an arrow or viewer "next" button
    | Prev                   // an arrow or viewer "previous" button
    | Press(x: real)         // mouse down / touch start at clientX
    | Move(x: real)          // mouse move / touch move at clientX
    | Release                // mouse up / touch end
    | Dot(slide: int)        // the indicator dot of a slide
    | ClickCurrent           // click on the centred slide
    | CloseModal             // the viewer's backdrop or close button

  const Threshold: real := 100.0
  const MaxDrag: real := 200.0

  const Initial := State(0, false, 0.0, 0.0, false)

  function NextIndex(n: int, i: int): (j: int)
    requires n >= 1
    ensures 0 <= i < n ==> 0 <= j < n
  {
    Js.Rem(i + 1, n)
  }

  function PrevIndex(n: int, i: int): (j: int)
    requires n >= 1
    ensures 0 <= i < n ==> 0 <= j < n
  {
    Js.Rem(i - 1 + n, n)
  }

  function NextNextIndex(n: int, i: int): (j: int)
    requires n >= 1
    ensures 0 <= i < n ==> 0 <= j < n
  {
    Js.Rem(i + 2, n)
  }

  function PrevPrevIndex(n: int, i: int): (j: int)
    requires n >= 1
    ensures 0 <= i < n ==> 0 <= j < n
  {
    Js.Rem(i - 2 + n, n)
  }

  /** `goToNext` and `goToPrev` stay on a slide and undo each other. */
  lemma NextPrevInverse(n: int, i: int)
    requires n >= 1 && 0 <= i < n
    ensures 0 <= NextIndex(n, i) < n && 0 <= PrevIndex(n, i) < n
    ensures PrevIndex(n, NextIndex(n, i)) == i
    ensures NextIndex(n, PrevIndex(n, i)) == i
  {
    Js.RemOfSmall(i + 1, n);
    Js.RemOfSmall(i - 1 + n, n);
    Js.RemOfSmall(NextIndex(n, i) - 1 + n, n);
    Js.RemOfSmall(PrevIndex(n, i) + 1, n);
  }

  /** The four neighbours drawn around the current slide are slides, and
      they are one and two steps away in each direction. */
  lemma NeighboursInRange(n: int, i: int)
    requires n >= 2 && 0 <= i < n
    ensures 0 <= PrevPrevIndex(n, i) < n && 0 <= PrevIndex(n, i) < n
    ensures 0 <= NextIndex(n, i) < n && 0 <= NextNextIndex(n, i) < n
    ensures NextNextIndex(n, i) == NextIndex(n, NextIndex(n, i))
    ensures PrevPrevIndex(n, i) == PrevIndex(n, PrevIndex(n, i))
  {
    NextPrevInverse(n, i);
    NextPrevInverse(n, NextIndex(n, i));
    NextPrevInverse(n, PrevIndex(n, i));
    Js.RemOfSmall(i + 2, n);
    Js.RemOfSmall(i - 2 + n, n);
    Js.RemOfSmall(i + 1, n);
    Js.RemOfSmall(i - 1 + n, n);
    Js.RemOfSmall(NextIndex(n, i) + 1, n);
    Js.RemOfSmall(PrevIndex(n, i) - 1 + n, n);
  }

  /** `getDragProgress`: the offset over 200 pixels, clamped to [-1, 1]. */
  function DragProgress(offset: real): (p: real)
    ensures -1.0 <= p <= 1.0
    ensures -MaxDrag <= offset <= MaxDrag ==> p * MaxDrag == offset
    ensures offset >= MaxDrag ==> p == 1.0
    ensures offset <= -MaxDrag ==> p == -1.0
    ensures (p > 0.0 <==> offset > 0.0) && (p < 0.0 <==> offset < 0.0)
  {
    Js.Max(-1.0, Js.Min(1.0, offset / MaxDrag))
  }

  /** The release handler's slide choice: a drag right of more than 100
      pixels shows the previous slide, left of more than 100 the next. */
  function ReleaseTarget(n: int, i: int, offset: real): int
    requires n >= 1
  {
    if offset > Threshold then PrevIndex(n, i)
    else if offset < -Threshold then NextIndex(n, i)
    else i
  }

  /** `handleMouseMove` / `handleTouchMove`: during a drag the offset
      becomes the distance from the press position; otherwise nothing. */
  function HandleMove(s: State, x: real): (s': State)
    ensures !s.isDragging ==> s' == s
    ensures s.isDragging ==> s'.dragOffset + s.startX == x && s' == s.(dragOffset := s'.dragOffset)
  {
    if !s.isDragging then s else s.(dragOffset := x - s.startX)
  }

  /** `handleMouseUp` / `handleTouchEnd`: acts only during a drag; with the
      strict 100-pixel threshold it moves back, forward or nowhere, and
      always ends the drag with the offset cleared. */
  function HandleRelease(c: Config, s: State): (s': State)
    requires ValidConfig(c)
    ensures !s.isDragging ==> s' == s
    ensures s.isDragging ==>
              !s'.isDragging && s'.dragOffset == 0.0 &&
              s'.startX == s.startX && s'.isModalOpen == s.isModalOpen
    ensures s.isDragging && s.dragOffset > 100.0 ==>
              s'.currentIndex == PrevIndex(c.slides, s.currentIndex)
    ensures s.isDragging && s.dragOffset < -100.0 ==>
              s'.currentIndex == NextIndex(c.slides, s.currentIndex)
    ensures -100.0 <= s.dragOffset <= 100.0 ==> s'.currentIndex == s.currentIndex
  {
    if !s.isDragging then s
    else s.(currentIndex := ReleaseTarget(c.slides, s.currentIndex, s.dragOffset),
            isDragging := false, dragOffset := 0.0)
  }

  /** A second release, as the document-level listener may deliver, is a no-op. */
  lemma ReleaseIdempotent(c: Config, s: State)
    requires ValidConfig(c)
    ensures HandleRelease(c, HandleRelease(c, s)) == HandleRelease(c, s)
  {
  }

  /** The dots exist for the slides only. */
  predicate Deliverable(c: Config, e: Event)
  {
    e.Dot? ==> 0 <= e.slide < c.slides
  }

  /** One event. Arrow events arrive only from a control on screen: the
      arrows beside the carousel where the page has them, otherwise the
      viewer's buttons while it is open. */
  function Step(c: Config, s: State, e: Event): (s': State)
    requires ValidConfig(c) && Deliverable(c, e)
    ensures Inv(c, s) ==> Inv(c, s')
    ensures e.Next? && (c.hasArrows || s.isModalOpen) ==> s'.currentIndex == NextIndex(c.slides, s.currentIndex)
    ensures e.Prev? && (c.hasArrows || s.isModalOpen) ==> s'.currentIndex == PrevIndex(c.slides, s.currentIndex)
    ensures (e.Next? || e.Prev?) && !c.hasArrows && !s.isModalOpen ==> s' == s
    ensures e.Dot? ==> s' == s.(currentIndex := e.slide)
    ensures e.Move? ==> s' == HandleMove(s, e.x)
    ensures e.Release? ==> s' == HandleRelease(c, s)
    ensures e.ClickCurrent? ==> s' == s.(isModalOpen := s.isModalOpen || (c.currentOpensModal && !s.isDragging))
    ensures e.CloseModal? ==> s' == s.(isModalOpen := false)
    ensures e.Press? ==> s'.isDragging && s'.startX == e.x && s'.currentIndex == s.currentIndex
    ensures !e.ClickCurrent? && !e.CloseModal? ==> s'.isModalOpen == s.isModalOpen
    ensures !s.isModalOpen && s'.isModalOpen ==>
              e.ClickCurrent? && c.currentOpensModal && !s.isDragging
  {
    match e
    case Next =>
      if c.hasArrows || s.isModalOpen then s.(currentIndex := NextIndex(c.slides, s.currentIndex)) else s
    case Prev =>
      if c.hasArrows || s.isModalOpen then s.(currentIndex := PrevIndex(c.slides, s.currentIndex)) else s
    case Press(x) => s.(isDragging := true, startX := x)
    case Move(x) => HandleMove(s, x)
    case Release => HandleRelease(c, s)
    case Dot(i) => s.(currentIndex := i)
    case ClickCurrent => if c.currentOpensModal && !s.isDragging then s.(isModalOpen := true) else s
    case CloseModal => s.(isModalOpen := false)
  }

  /** The state every reachable configuration satisfies: a real slide, no
      leftover offset outside a drag, and no viewer on a page without a
      way to open it. */
  predicate Inv(c: Config, s: State)
  {
    0 <= s.currentIndex < c.slides &&
    (!s.isDragging ==> s.dragOffset == 0.0) &&
    (!c.currentOpensModal ==> !s.isModalOpen)
  }

  function Run(c: Config, s: State, events: seq<Event>): State
    requires ValidConfig(c)
    requires forall k :: 0 <= k < |events| ==> Deliverable(c, events[k])
    decreases |events|
  {
    if |events| == 0 then s
    else
      assert Deliverable(c, events[0]);
      Run(c, Step(c, s, events[0]), events[1..])
  }

  /** Every state reachable from the initial one satisfies the invariant. */
  lemma {:induction false} RunKeepsInv(c: Config, s: State, events: seq<Event>)
    requires ValidConfig(c) && Inv(c, s)
    requires forall k :: 0 <= k < |events| ==> Deliverable(c, events[k])
    ensures Inv(c, Run(c, s, events))
    decreases |events|
  {
    if |events| > 0 {
      RunKeepsInv(c, Step(c, s, events[0]), events[1..]);
    }
  }
}

=== FILE: dragon_page.dfy ===
/** The dragon gallery (pages/dragon.tsx): the same carousel over two
    slides, with arrow buttons and a viewer that nothing opens. */
module DragonPage {
  import C = Carousel

  const Dragon := C.Config(2, false, true)

  /** With two slides the neighbour on either side is the other slide and
      the far neighbours are the current one. */
  lemma TwoSlideNeighbours(i: int)
    requires 0 <= i < 2
    ensures C.NextIndex(2, i) == C.PrevIndex(2, i) == 1 - i
    ensures C.NextNextIndex(2, i) == i && C.PrevPrevIndex(2, i) == i
  {
  }

  /** No event ever opens the viewer: the centred slide has no click
      handler, so from the initial state `isModalOpen` stays false. */
  lemma {:induction false} ViewerNeverOpens(events: seq<C.Event>)
    requires forall k :: 0 <= k < |events| ==> C.Deliverable(Dragon, events[k])
    ensures !C.Run(Dragon, C.Initial, events).isModalOpen
  {
    C.RunKeepsInv(Dragon, C.Initial, events);
  }
}

=== FILE: home_page.dfy ===
/** The landing page (pages/index.tsx): three tabs, each showing a fixed
    model file, and a heading naming the active tab. */
module HomePage {
  import opened Wrappers
  import Js
  import ModelLoader

  /** `TabType` of components/TabBar.tsx. */
  datatype Tab = Lion | Dragon | Achievement

  /** `useState<TabType>('lion')`. */
  const InitialTab: Tab := Lion

  function Key(t: Tab): string
  {
    match t
    case Lion => "lion"
    case Dragon => "dragon"
    case Achievement => "achievement"
  }

  /** Reading a tab key back; only the three keys name a tab. */
  function TabOfKey(k: string): (t: Option<Tab>)
    ensures t.Some? ==> Key(t.value) == k
    ensures (exists u :: Key(u) == k) ==> t.Some?
  {
    if k == "lion" then Some(Lion)
    else if k == "dragon" then Some(Dragon)
    else if k == "achievement" then Some(Achievement)
    else None
  }

  /** The asset each tab displays; the achievement tab shows the trophy. */
  function AssetName(t: Tab): string
  {
    match t
    case Lion => "lion"
    case Dragon => "dragon"
    case Achievement => "trophy"
  }

  /** `MODEL_PATHS[activeTab]`: a fixed file per tab, always the asset's
      own `/<name>.glb`, whatever the device. */
  function ModelPath(t: Tab): (path: string)
    ensures path == ModelLoader.DefaultPath(AssetName(t))
    ensures t == Lion ==> path == "/lion.glb"
    ensures t == Dragon ==> path == "/dragon.glb"
    ensures t == Achievement ==> path == "/trophy.glb"
  {
    match t
    case Lion => "/lion.glb"
    case Dragon => "/dragon.glb"
    case Achievement => "/trophy.glb"
  }

  /** The state update `handleTabChange` requests: `setActiveTab(tab)` only
      when the tab differs from the active one. */
  function TabUpdate(active: Tab, tab: Tab): (update: Option<Tab>)
    ensures update.Some? <==> tab != active
    ensures update.Some? ==> update.value == tab
  {
    if tab != active then Some(tab) else None
  }

  /** The active tab after `handleTabChange`, whether or not an update was
      requested. */
  function HandleTabChange(active: Tab, tab: Tab): (next: Tab)
    ensures next == tab
  {
    match TabUpdate(active, tab)
    case None => active
    case Some(t) => t
  }

  /** The heading: a special case for the achievement tab, the upper-cased key otherwise. */
  function Title(t: Tab): (title: string)
    ensures title == Js.Upper(Key(t))
  {
    if t == Achievement then "ACHIEVEMENT" else Js.Upper(Key(t))
  }

  /** The page opens on the lion tab: heading "LION" and the full lion model,
      on any device. */
  lemma InitialView()
    ensures Key(InitialTab) == "lion" && TabOfKey("lion") == Some(InitialTab)
    ensures Title(InitialTab) == "LION"
    ensures ModelPath(InitialTab) == "/lion.glb"
  {
  }

  /** Changing tabs twice to the same tab is the same as once. */
  lemma TabChangeIdempotent(active: Tab, tab: Tab)
    ensures HandleTabChange(HandleTabChange(active, tab), tab) == HandleTabChange(active, tab)
  {
  }

  /** The page's files are the loader's desktop choices; on a mobile device
      the lion tab still loads the full file where the loader would pick the
      mobile one, because this page never consults the loader. */
  lemma PathsVersusLoader(t: Tab, caps: ModelLoader.DeviceCapabilities, env: ModelLoader.Environment)
    ensures !caps.isMobile ==>
              ModelPath(t) == ModelLoader.GetOptimalModelPath(AssetName(t), Some(caps), env)
    ensures caps.isMobile ==>
              (ModelPath(t) == ModelLoader.GetOptimalModelPath(AssetName(t), Some(caps), env) <==> t != Lion)
  {
  }
}

=== FILE: js.dfy ===
/** The few JavaScript operator semantics the modelled code depends on,
    written out because Dafny's own operators differ from them. */
module Js {

  /** JavaScript's `%` on integers: the remainder truncates toward zero, so
      its sign follows the dividend (Dafny's `%` is Euclidean). */
  function Rem(a: int, b: int): (r: int)
    requires b > 0
    ensures a >= 0 ==> 0 <= r < b && r == a % b
    ensures a < 0 ==> -b < r <= 0
  {
    if a >= 0 then a % b else -((-a) % b)
  }

  /** On a dividend in [0, 2b) the remainder is a single conditional subtraction. */
  lemma RemOfSmall(a: int, b: int)
    requires b > 0 && 0 <= a < 2 * b
    ensures Rem(a, b) == if a < b then a else a - b
  {
    if a >= b {
      assert a - b == (a - b) % b;
    }
  }

  /** `Math.round`: the nearest integer, with halves rounded up toward +infinity. */
  function Round(x: real): (r: int)
    ensures r as real - 0.5 <= x < r as real + 0.5
  {
    (x + 0.5).Floor
  }

  /** `Math.min` on two (non-NaN) numbers. */
  function Min(a: real, b: real): (r: real)
    ensures r <= a && r <= b
    ensures r == a || r == b
  {
    if a <= b then a else b
  }

  /** `Math.max` on two (non-NaN) numbers. */
  function Max(a: real, b: real): (r: real)
    ensures a <= r && b <= r
    ensures r == a || r == b
  {
    if a <= b then b else a
  }

  /** Case folding as a non-Unicode `/i` regular expression performs it on
      ASCII text: only the letters A-Z and a-z are identified. */
  function FoldChar(c: char): char
  {
    if 'A' <= c <= 'Z' then (c as int + 32) as char else c
  }

  /** `toUpperCase` restricted to ASCII letters. */
  function UpperChar(c: char): char
  {
    if 'a' <= c <= 'z' then (c as int - 32) as char else c
  }

  function Upper(s: string): (u: string)
    ensures |u| == |s|
    ensures forall k :: 0 <= k < |s| ==> u[k] == UpperChar(s[k])
  {
    if |s| == 0 then "" else [UpperChar(s[0])] + Upper(s[1..])
  }

  /** `pat` occurs in `s` at offset `i`, ignoring ASCII case. */
  predicate MatchesAt(s: string, pat: string, i: int)
  {
    0 <= i && i + |pat| <= |s| &&
    forall k :: 0 <= k < |pat| ==> FoldChar(s[i + k]) == FoldChar(pat[k])
  }

  /** What `/pat/i.test(s)` answers for a literal pattern. */
  predicate ContainsIgnoreCase(s: string, pat: string)
  {
    exists i :: 0 <= i <= |s| - |pat| && MatchesAt(s, pat, i)
  }

  /** The left-to-right scan a regular-expression engine performs for a
      literal pattern, answering exactly `ContainsIgnoreCase`. */
  method SearchIgnoreCase(s: string, pat: string) returns (found: bool)
    ensures found <==> ContainsIgnoreCase(s, pat)
  {
    var i := 0;
    while i + |pat| <= |s|
      invariant 0 <= i <= |s| + 1
      invariant forall j :: 0 <= j < i ==> !MatchesAt(s, pat, j)
      decreases |s| + 1 - i
    {
      var k := 0;
      while k < |pat| && FoldChar(s[i + k]) == FoldChar(pat[k])
        invariant 0 <= k <= |pat|
        invariant forall m :: 0 <= m < k ==> FoldChar(s[i + m]) == FoldChar(pat[m])
      {
        k := k + 1;
      }
      if k == |pat| {
        assert MatchesAt(s, pat, i);
        return true;
      }
      assert !MatchesAt(s, pat, i);
      i := i + 1;
    }
    return false;
  }
}

=== FILE: lion_page.dfy ===
/** The lion gallery (pages/lion.tsx): the carousel over six slides, with
    the viewer opened by clicking the centred slide and no arrow buttons
    outside the viewer. */
module LionPage {
  import C = Carousel
  import Js

  const Lion := C.Config(6, true, false)

  /** With six slides the five drawn positions (two back, one back,
      current, one on, two on) show five different images. */
  lemma FiveDistinctSlides(i: int)
    requires 0 <= i < 6
    ensures var shown := [C.PrevPrevIndex(6, i), C.PrevIndex(6, i), i, C.NextIndex(6, i), C.NextNextIndex(6, i)];
            forall a, b :: 0 <= a < b < 5 ==> shown[a] != shown[b]
  {
    Js.RemOfSmall(i + 1, 6);
    Js.RemOfSmall(i + 2, 6);
    Js.RemOfSmall(i - 1 + 6, 6);
    Js.RemOfSmall(i - 2 + 6, 6);
  }

  /** The click handler opens the viewer unless a drag is in progress. */
  lemma ViewerOpensOnClick(s: C.State)
    requires C.Inv(Lion, s) && !s.isDragging
    ensures C.Step(Lion, s, C.ClickCurrent).isModalOpen
    ensures C.Step(Lion, s.(isDragging := true), C.ClickCurrent) == s.(isDragging := true)
  {
  }

  /** A browser delivers `click` after `mouseup`/`touchend`, whose release has
      already ended the drag. So a short drag (within the 100-pixel threshold)
      followed by its click opens the viewer on the same slide: the drag guard
      never blocks a click that ends a gesture. */
  lemma ShortDragThenClickOpens(s: C.State, x: real, d: real)
    requires C.Inv(Lion, s) && -100.0 <= d <= 100.0
    ensures var s' := C.Run(Lion, s, [C.Press(x), C.Move(x + d), C.Release, C.ClickCurrent]);
            s'.isModalOpen && s'.currentIndex == s.currentIndex && !s'.isDragging
  {
    var s1 := C.Step(Lion, s, C.Press(x));
    var s2 := C.Step(Lion, s1, C.Move(x + d));
    var s3 := C.Step(Lion, s2, C.Release);
    assert s3.currentIndex == s.currentIndex && !s3.isDragging;
    var s4 := C.Step(Lion, s3, C.ClickCurrent);
    var evs := [C.Press(x), C.Move(x + d), C.Release, C.ClickCurrent];
    assert evs[1..] == [C.Move(x + d), C.Release, C.ClickCurrent];
    assert evs[2..] == [C.Release, C.ClickCurrent];
    assert evs[3..] == [C.ClickCurrent];
    assert C.Run(Lion, s3, evs[3..]) == C.Run(Lion, s4, []) == s4;
    assert C.Run(Lion, s2, evs[2..]) == C.Run(Lion, s3, evs[3..]);
    assert C.Run(Lion, s1, evs[1..]) == C.Run(Lion, s2, evs[2..]);
    assert C.Run(Lion, s, evs) == C.Run(Lion, s1, evs[1..]);
  }

  /** Outside the viewer the page has no arrow buttons, so only a drag or a
      dot changes the slide. */
  lemma ArrowsOnlyInViewer(s: C.State)
    requires !s.isModalOpen
    ensures C.Step(Lion, s, C.Next) == s && C.Step(Lion, s, C.Prev) == s
  {
  }
}

=== FILE: load_progress.dfy ===
/** The first-load gate of the model viewer
    (components/ModelViewerWithProgress.tsx). `progress` is the loading
    hook's current value, an input; the component keeps `isFirstLoad` and
    `displayProgress`. The 500 ms reveal timer is an event: `pendingReveals`
    counts timers scheduled and not yet fired (they are never cancelled). */
module LoadProgress {

  datatype State = State(progress: real, isFirstLoad: bool, displayProgress: real, pendingReveals: nat)

  datatype Event =
    | Progress(value: real)   // the loading hook reports a new value
    | PathChange              // the `modelPath` prop changes
    | RevealElapsed           // a scheduled 500 ms timer fires

  const Full: real := 100.0

  /** Outside the first load the displayed value is pinned to 100. */
  predicate Inv(s: State)
  {
    !s.isFirstLoad ==> s.displayProgress == Full
  }

  /** The effect keyed on `[progress, isFirstLoad]`: during the first load a
      positive value is copied to the display, and reaching 100 schedules a
      reveal; after the first load the display is forced to 100. */
  function SyncEffect(s: State): (s': State)
    ensures s'.progress == s.progress && s'.isFirstLoad == s.isFirstLoad
    ensures s.isFirstLoad && s.progress > 0.0 ==> s'.displayProgress == s.progress
    ensures s.isFirstLoad && s.progress <= 0.0 ==> s' == s
    ensures !s.isFirstLoad ==> s'.displayProgress == Full && s'.pendingReveals == s.pendingReveals
    ensures s'.pendingReveals == s.pendingReveals + (if s.isFirstLoad && s.progress >= Full then 1 else 0)
    ensures Inv(s')
  {
    if s.isFirstLoad && s.progress > 0.0 then
      s.(displayProgress := s.progress,
         pendingReveals := if s.progress >= Full then s.pendingReveals + 1 else s.pendingReveals)
    else if !s.isFirstLoad then s.(displayProgress := Full)
    else s
  }

  /** Mounting: the initial state (display 0, first load pending), then both
      effects run once; the reset effect changes nothing at mount. */
  function Mount(progress: real): (s: State)
    ensures s.isFirstLoad && Inv(s)
    ensures s.displayProgress == (if progress > 0.0 then progress else 0.0)
  {
    SyncEffect(State(progress, true, 0.0, 0))
  }

  /** The reset effect on a path change. Its setters re-render; the sync
      effect re-runs only if `isFirstLoad` actually flipped back to true,
      and then copies the hook's current value over the fresh 0. */
  function ChangePath(s: State): (s': State)
    ensures s'.isFirstLoad && s'.progress == s.progress
    ensures s.isFirstLoad ==> s'.displayProgress == 0.0
    ensures !s.isFirstLoad ==> s'.displayProgress == (if s.progress > 0.0 then s.progress else 0.0)
  {
    var reset := s.(isFirstLoad := true, displayProgress := 0.0);
    if s.isFirstLoad then reset else SyncEffect(reset)
  }

  /** A reveal timer fires: if the first load is still on it ends, and the
      sync effect then pins the display to 100. */
  function Reveal(s: State): (s': State)
    requires s.pendingReveals > 0
    ensures !s'.isFirstLoad && s'.displayProgress == Full
    ensures s'.pendingReveals == s.pendingReveals - 1
    ensures !s.isFirstLoad && Inv(s) ==> s' == s.(pendingReveals := s.pendingReveals - 1)
  {
    var fired := s.(pendingReveals := s.pendingReveals - 1);
    if !s.isFirstLoad then fired.(displayProgress := Full) else SyncEffect(fired.(isFirstLoad := false))
  }

  function Step(s: State, e: Event): (s': State)
    ensures Inv(s) ==> Inv(s')
    ensures s.isFirstLoad && !s'.isFirstLoad ==> e.RevealElapsed? && s.pendingReveals > 0
    ensures s'.pendingReveals > s.pendingReveals ==>
              s'.isFirstLoad && s'.progress >= Full && s'.displayProgress >= Full
    ensures e.Progress? && s.isFirstLoad && e.value != s.progress && e.value > 0.0 ==>
              s'.displayProgress == e.value
    ensures Inv(s) && e.Progress? && e.value == 0.0 ==> s' == s.(progress := 0.0)
    ensures e.Progress? && e.value == s.progress ==> s' == s
    ensures e.PathChange? ==> s' == ChangePath(s)
    ensures e.RevealElapsed? ==> s' == (if s.pendingReveals == 0 then s else Reveal(s))
  {
    match e
    case Progress(v) => if v == s.progress then s else SyncEffect(s.(progress := v))
    case PathChange => ChangePath(s)
    case RevealElapsed => if s.pendingReveals == 0 then s else Reveal(s)
  }

  /** The render branch: the model scene only once the first load is over
      and the display has reached 100, the progress bar otherwise. */
  predicate ShowsModel(s: State)
  {
    !(s.isFirstLoad || s.displayProgress < Full)
  }

  /** Under the invariant the scene is shown exactly when the first load is over. */
  lemma ShowsModelIffLoaded(s: State)
    requires Inv(s)
    ensures ShowsModel(s) <==> !s.isFirstLoad
  {
  }

  function Run(s: State, events: seq<Event>): State
    decreases |events|
  {
    if |events| == 0 then s else Run(Step(s, events[0]), events[1..])
  }

  /** Whatever the hook reports and however often the path changes, every
      state after mounting keeps the invariant, so the model is on screen
      exactly when the first load has ended. */
  lemma {:induction false} RunKeepsInv(progress: real, events: seq<Event>)
    ensures Inv(Run(Mount(progress), events))
    ensures ShowsModel(Run(Mount(progress), events)) <==> !Run(Mount(progress), events).isFirstLoad
  {
    RunFromInv(Mount(progress), events);
    ShowsModelIffLoaded(Run(Mount(progress), events));
  }

  lemma {:induction false} RunFromInv(s: State, events: seq<Event>)
    requires Inv(s)
    ensures Inv(Run(s, events))
    decreases |events|
  {
    if |events| > 0 {
      RunFromInv(Step(s, events[0]), events[1..]);
    }
  }

  /** The displayed value is a copy of the hook's, not a running maximum: a
      hook value that drops during the first load drops on screen too. */
  lemma DisplayNotMonotone()
    ensures var s := State(60.0, true, 60.0, 0);
            Step(s, Progress(40.0)).displayProgress == 40.0 < s.displayProgress
  {
  }

  /** A reveal scheduled before a path change is not cancelled: it can end
      the new path's first load with no progress reported since the change. */
  lemma StaleRevealEndsNewFirstLoad()
    ensures var s := Step(State(100.0, true, 100.0, 1), PathChange);
            s.isFirstLoad && s.displayProgress == 0.0 &&
            ShowsModel(Step(s, RevealElapsed))
  {
  }
}

=== FILE: model_loader.dfy ===
/** Device-capability classification and the asset and rendering choices
    derived from it (lib/modelLoader.ts). The browser globals the source
    reads are gathered into an explicit `Environment` snapshot. */
module ModelLoader {
  import opened Wrappers
  import Js

  datatype Quality = Low | Medium | High

  /** The Network Information object; either field may be missing. */
  datatype Connection = Connection(effectiveType: Option<string>, saveData: Option<bool>)

  /** What `detectDeviceCapabilities` can observe. `NoWindow` is the
      server-side render, where `window` is undefined. In a browser the
      three connection slots are `navigator.connection`,
      `navigator.mozConnection` and `navigator.webkitConnection`, and
      `None` in a hint means the property is undefined. */
  datatype Environment =
    | NoWindow
    | Browser(innerWidth: int, userAgent: string,
              connection: Option<Connection>,
              mozConnection: Option<Connection>,
              webkitConnection: Option<Connection>,
              hardwareConcurrency: Option<int>,
              deviceMemory: Option<real>,
              devicePixelRatio: real)

  datatype DeviceCapabilities = DeviceCapabilities(
    isMobile: bool,
    isSlowConnection: bool,
    isLowEndDevice: bool,
    recommendedQuality: Quality)

  const MobileBreakpoint: int := 768
  const MaxCores: int := 4
  const MaxMemory: real := 2.0
  const MobileTokens: seq<string> :=
    ["Android", "webOS", "iPhone", "iPad", "iPod", "BlackBerry", "IEMobile", "Opera Mini"]

  /** The user-agent regular expression is an alternation of literals with
      the `i` flag: it matches when any token occurs, ignoring case. */
  predicate IsMobileUserAgent(ua: string)
  {
    exists k :: 0 <= k < |MobileTokens| && Js.ContainsIgnoreCase(ua, MobileTokens[k])
  }

  /** Evaluating the user-agent test token by token. */
  method TestMobileUserAgent(ua: string) returns (matched: bool)
    ensures matched <==> IsMobileUserAgent(ua)
  {
    var k := 0;
    while k < |MobileTokens|
      invariant 0 <= k <= |MobileTokens|
      invariant forall j :: 0 <= j < k ==> !Js.ContainsIgnoreCase(ua, MobileTokens[j])
    {
      var found := Js.SearchIgnoreCase(ua, MobileTokens[k]);
      if found {
        return true;
      }
      k := k + 1;
    }
    return false;
  }

  /** `connection || mozConnection || webkitConnection`: the first object
      present (an object is always truthy). */
  function ActiveConnection(env: Environment): Option<Connection>
    requires env.Browser?
  {
    if env.connection.Some? then env.connection
    else if env.mozConnection.Some? then env.mozConnection
    else env.webkitConnection
  }

  /** `connection && (...)`: a missing connection is never slow. */
  predicate SlowConnection(c: Option<Connection>)
  {
    c.Some? &&
    (c.value.effectiveType == Some("slow-2g") ||
     c.value.effectiveType == Some("2g") ||
     c.value.saveData == Some(true))
  }

  /** The hardware half of the low-end test. `undefined <= n` is false in
      JavaScript, so a missing hint never counts. */
  predicate LowHardware(env: Environment)
    requires env.Browser?
  {
    (env.hardwareConcurrency.Some? && env.hardwareConcurrency.value <= MaxCores) ||
    (env.deviceMemory.Some? && env.deviceMemory.value <= MaxMemory)
  }

  /** The if/else-if chain choosing the recommended quality. */
  function Tier(isSlowConnection: bool, isMobile: bool, isLowEndDevice: bool): Quality
  {
    if isSlowConnection || (isMobile && isLowEndDevice) then Low
    else if isMobile || isLowEndDevice then Medium
    else High
  }

  /** `detectDeviceCapabilities` as a function of the environment. */
  function DetectDeviceCapabilities(env: Environment): (r: DeviceCapabilities)
    ensures env.NoWindow? ==> r == DeviceCapabilities(false, false, false, High)
    ensures r.isMobile ==> r.isLowEndDevice
    ensures r.isSlowConnection || r.isMobile ==> r.recommendedQuality == Low
    ensures r.recommendedQuality == Medium <==> !r.isSlowConnection && !r.isMobile && r.isLowEndDevice
    ensures r.recommendedQuality == High <==> !r.isSlowConnection && !r.isMobile && !r.isLowEndDevice
  {
    match env
    case NoWindow => DeviceCapabilities(false, false, false, High)
    case Browser(_, _, _, _, _, _, _, _) =>
      var isMobile := env.innerWidth < MobileBreakpoint || IsMobileUserAgent(env.userAgent);
      var isSlow := SlowConnection(ActiveConnection(env));
      var isLowEnd := LowHardware(env) || isMobile;
      DeviceCapabilities(isMobile, isSlow, isLowEnd, Tier(isSlow, isMobile, isLowEnd))
  }

  /** The mobile flag: a narrow viewport or a mobile user agent, nothing else. */
  lemma MobileIffNarrowOrMobileAgent(env: Environment)
    requires env.Browser?
    ensures DetectDeviceCapabilities(env).isMobile <==>
              env.innerWidth < 768 || IsMobileUserAgent(env.userAgent)
  {
  }

  /** Slowness needs a connection object that reports 2g, slow-2g or data saving. */
  lemma SlowNeedsReportingConnection(env: Environment)
    requires env.Browser?
    ensures DetectDeviceCapabilities(env).isSlowConnection <==>
              exists c :: ActiveConnection(env) == Some(c) &&
                (c.effectiveType in {Some("slow-2g"), Some("2g")} || c.saveData == Some(true))
    ensures env.connection.None? && env.mozConnection.None? && env.webkitConnection.None? ==>
              !DetectDeviceCapabilities(env).isSlowConnection
  {
    var a := ActiveConnection(env);
    if a.Some? {
      assert a == Some(a.value);
    }
  }

  /** The low-end flag, whatever the connection speed: with both hints
      present either one at its limit or the mobile flag decides. An
      undefined hint never makes a device low-end: with one hint missing
      only the other hint or the mobile flag decides, and with both missing
      only a mobile device is low-end. */
  lemma MissingHintsNeverLowEnd(env: Environment)
    requires env.Browser?
    ensures env.hardwareConcurrency.None? ==>
              (DetectDeviceCapabilities(env).isLowEndDevice <==>
                 DetectDeviceCapabilities(env).isMobile ||
                 (env.deviceMemory.Some? && env.deviceMemory.value <= 2.0))
    ensures env.deviceMemory.None? ==>
              (DetectDeviceCapabilities(env).isLowEndDevice <==>
                 DetectDeviceCapabilities(env).isMobile ||
                 (env.hardwareConcurrency.Some? && env.hardwareConcurrency.value <= 4))
    ensures env.hardwareConcurrency.None? && env.deviceMemory.None? ==>
              DetectDeviceCapabilities(env).isLowEndDevice == DetectDeviceCapabilities(env).isMobile
    ensures env.hardwareConcurrency.Some? && env.deviceMemory.Some? ==>
              (DetectDeviceCapabilities(env).isLowEndDevice <==>
                 DetectDeviceCapabilities(env).isMobile ||
                 env.hardwareConcurrency.value <= 4 || env.deviceMemory.value <= 2.0)
  {
  }

  /** `Tier` given the hardware test alone, `Tier(slow, mobile,
      LowHardware(env))`, is a tier table that treats a mobile device and
      weak hardware as separate factors. Because the code folds `isMobile`
      into `isLowEndDevice`, it departs from that table exactly on a mobile
      device with a fast connection and adequate hardware, which it rates
      low where the table says medium. */
  lemma CodeVersusTable(env: Environment)
    requires env.Browser?
    ensures var r := DetectDeviceCapabilities(env);
            var table := Tier(r.isSlowConnection, r.isMobile, LowHardware(env));
            r.recommendedQuality != table <==>
              (r.isMobile && !r.isSlowConnection && !LowHardware(env))
    ensures var r := DetectDeviceCapabilities(env);
            r.isMobile && !r.isSlowConnection && !LowHardware(env) ==>
              r.recommendedQuality == Low &&
              Tier(r.isSlowConnection, r.isMobile, LowHardware(env)) == Medium
  {
  }

  /** One row of the path table. */
  datatype Variants = Variants(mobile: string, desktop: string)

  const QualityMap: map<string, Variants> := map[
    "lion" := Variants("/lion-mobile.glb", "/lion.glb"),
    "dragon" := Variants("/dragon.glb", "/dragon.glb"),
    "trophy" := Variants("/trophy.glb", "/trophy.glb")
  ]

  /** The `/<name>.glb` fallback. */
  function DefaultPath(name: string): string
  {
    "/" + name + ".glb"
  }

  /** `getOptimalModelPath`: the capabilities argument when given, detection
      otherwise; then `map[name]?.[quality] || map[name]?.desktop || fallback`,
      where the empty string is falsy. No inherited property of a plain
      object carries a `mobile` or `desktop` key, so a name outside the
      table always reaches the fallback. */
  function GetOptimalModelPath(baseModelName: string, capabilities: Option<DeviceCapabilities>,
                               env: Environment): (path: string)
    ensures |path| > 0 && path[0] == '/'
    ensures var caps := if capabilities.Some? then capabilities.value else DetectDeviceCapabilities(env);
            baseModelName == "lion" ==> path == (if caps.isMobile then "/lion-mobile.glb" else "/lion.glb")
    ensures baseModelName == "dragon" || baseModelName == "trophy" ==> path == DefaultPath(baseModelName)
    ensures baseModelName !in QualityMap ==> path == DefaultPath(baseModelName)
  {
    var caps := if capabilities.Some? then capabilities.value else DetectDeviceCapabilities(env);
    var entry := if baseModelName in QualityMap then Some(QualityMap[baseModelName]) else None;
    var chosen := if entry.None? then "" else if caps.isMobile then entry.value.mobile else entry.value.desktop;
    var desktop := if entry.None? then "" else entry.value.desktop;
    if chosen != "" then chosen
    else if desktop != "" then desktop
    else DefaultPath(baseModelName)
  }

  /** Path selection reads only the mobile flag of the capabilities. */
  lemma PathDependsOnlyOnMobile(name: string, c1: DeviceCapabilities, c2: DeviceCapabilities,
                                env1: Environment, env2: Environment)
    requires c1.isMobile == c2.isMobile
    ensures GetOptimalModelPath(name, Some(c1), env1) == GetOptimalModelPath(name, Some(c2), env2)
  {
  }

  /** Every name resolves to its own `.glb` file, or to the lion's mobile variant. */
  lemma PathIsNamedAsset(name: string, capabilities: Option<DeviceCapabilities>, env: Environment)
    ensures var path := GetOptimalModelPath(name, capabilities, env);
            path == DefaultPath(name) || (name == "lion" && path == "/lion-mobile.glb")
  {
  }

  /** `shouldUseAggressiveOptimizations`. */
  function ShouldUseAggressiveOptimizations(env: Environment): (aggressive: bool)
    ensures aggressive <==> DetectDeviceCapabilities(env).recommendedQuality != High
    ensures DetectDeviceCapabilities(env).isMobile ==> aggressive
    ensures env.NoWindow? ==> !aggressive
  {
    var caps := DetectDeviceCapabilities(env);
    caps.isSlowConnection || caps.isLowEndDevice
  }

  datatype RenderingSettings = RenderingSettings(
    shadows: bool,
    antialias: bool,
    pixelRatio: real,
    enableShadows: bool,
    shadowMapSize: int)

  const MobileSettings := RenderingSettings(false, false, 1.0, false, 256)
  const MaxPixelRatio: real := 2.0

  /** `getOptimalRenderingSettings`. */
  function GetOptimalRenderingSettings(env: Environment): (r: RenderingSettings)
    ensures DetectDeviceCapabilities(env).isMobile ==> r == MobileSettings
    ensures !DetectDeviceCapabilities(env).isMobile ==>
              r.shadows && r.antialias && r.enableShadows && r.shadowMapSize == 1024
    ensures r.shadows == r.antialias == r.enableShadows == !DetectDeviceCapabilities(env).isMobile
    ensures r.pixelRatio <= 2.0
    ensures env.NoWindow? ==> r.pixelRatio == 1.0
    ensures env.Browser? && !DetectDeviceCapabilities(env).isMobile ==>
              r.pixelRatio <= env.devicePixelRatio &&
              (r.pixelRatio == env.devicePixelRatio || r.pixelRatio == 2.0)
  {
    var caps := DetectDeviceCapabilities(env);
    if caps.isMobile then MobileSettings
    else
      RenderingSettings(true, true,
        if env.Browser? then Js.Min(env.devicePixelRatio, MaxPixelRatio) else 1.0,
        true, 1024)
  }
}

=== FILE: progress_bar.dfy ===
/** The progress bar's presentation (components/ProgressBar.tsx): the bar
    width, the rounded percentage and the status line, all functions of
    the value being displayed. */
module ProgressBar {
  import Js

  /** The four status bands, in the order a rising value passes through them. */
  datatype Band = Downloading | Processing | AlmostReady | Finishing

  function BandOf(p: real): (b: Band)
    ensures b == Downloading <==> p < 30.0
    ensures b == Processing <==> 30.0 <= p < 70.0
    ensures b == AlmostReady <==> 70.0 <= p < 100.0
    ensures b == Finishing <==> p >= 100.0
  {
    if p < 30.0 then Downloading
    else if p < 70.0 then Processing
    else if p < 100.0 then AlmostReady
    else Finishing
  }

  function Rank(b: Band): nat
  {
    match b
    case Downloading => 0
    case Processing => 1
    case AlmostReady => 2
    case Finishing => 3
  }

  function Label(b: Band): string
  {
    match b
    case Downloading => "Downloading..."
    case Processing => "Processing..."
    case AlmostReady => "Almost ready..."
    case Finishing => "Loading..."
  }

  /** The status line; each value gets exactly one of the four texts. */
  function StatusLabel(p: real): (text: string)
    ensures text == "Downloading..." <==> p < 30.0
    ensures text == "Processing..." <==> 30.0 <= p < 70.0
    ensures text == "Almost ready..." <==> 70.0 <= p < 100.0
    ensures text == "Loading..." <==> p >= 100.0
  {
    Label(BandOf(p))
  }

  /** As the value rises the status never returns to an earlier band. */
  lemma BandMonotone(p: real, q: real)
    requires p <= q
    ensures Rank(BandOf(p)) <= Rank(BandOf(q))
  {
  }

  /** The bar's width in percent: the value, capped at 100. */
  function BarWidth(p: real): (w: real)
    ensures w <= 100.0
    ensures p <= 100.0 ==> w == p
    ensures p >= 100.0 ==> w == 100.0
  {
    Js.Min(p, 100.0)
  }

  /** The percentage text: the value rounded to the nearest integer, halves up. */
  function Percentage(p: real): (n: int)
    ensures n as real - 0.5 <= p < n as real + 0.5
    ensures 0.0 <= p <= 100.0 ==> 0 <= n <= 100
  {
    Js.Round(p)
  }
}

=== FILE: wrappers.dfy ===
/** The optional-value type used for browser hints that may be absent and for
    parses that may fail. */
module Wrappers {

  /** `None` plays the role of JavaScript's `undefined`/`null`. */
  datatype Option<+T> = None | Some(value: T)
}
